=== FILE: README.md ===
# Pong frame update, modelled in Dafny

This project models the simulation core of a two-player Pong game written in Rust with the ggez
framework. The core is the per-frame `update` of `MainState`. It moves both paddles from the
keyboard. It advances the ball. It serves the ball again from the centre after a miss and
scores the point. It bounces the ball off the top and bottom walls, then off the paddles. The
model also covers the helpers `update` builds on (`clamp`, `move_racket`, `randomize_vec`),
the tuning constants, and the initial state from `MainState::new`.

Everything `update` reads from the ggez `Context` becomes an explicit input. A `Frame` value
holds the elapsed time `dt`, the drawable width and height, and the key-down state of W, S, Up
and Down. It also holds two pairs of coin flips, one for each `randomize_vec` call that a miss
can trigger. `New` takes its own pair of coins. One frame is then a pure function
`Physics.Update(state, frame)`. `Session.Run` applies it to a sequence of frames.

Layout:

- `geometry.dfy` (module `Geometry`): points, vectors, `Abs`, and the game's `Clamp`.
- `pong.dfy` (module `Pong`): the constants, `State`, `Frame`, `MoveRacket`, `RandomizeVec` and `New`.
- `physics.dfy` (module `Physics`): the phases of one frame, `Update`, and lemmas about one frame.
- `session.dfy` (module `Session`): `Run` over many frames, and the game invariant it keeps.

The code's quirks are modelled as written:

- The top wall is at `BALL_SIZE_HALF`, but the bottom wall is at `screen_h - BALL_SIZE`.
- A paddle's `y` is clamped as a top edge, but the collision test treats it as a centre.
- Each key is applied in turn, with a clamp after each. So holding both keys of a paddle is
  not neutral at the top edge (`Physics.BothKeysAtTopEdgeDriftsDown`).
- The two miss tests are separate `if`s. With a negative width, a ball leaving on the left
  triggers both tests, so both players score (`Physics.NegativeWidthScoresTwice`).
- The initial ball sits at `(w/2 - BALL_SIZE, h/2 - BALL_SIZE)`. After a miss it is served
  from the exact centre `(w/2, h/2)`.

## Model

| member | source | states |
|---|---|---|
| Geometry.Abs | src/main.rs:106 | `abs` returns a non-negative value equal to `x` or `-x` |
| Geometry.Clamp | src/main.rs:19-25 | for `low <= high` the result lies in `[low, high]`; a value already in range is unchanged; the result is always the value or one of the bounds |
| Geometry.ClampIsMaxOfMin | src/main.rs:19-25 | for a proper interval, `clamp` equals the reference definition `max(low, min(value, high))` |
| Geometry.ClampIdempotent | src/main.rs:19-25 | clamping twice into a proper interval is the same as clamping once |
| Geometry.ClampInvertedBounds | src/main.rs:19-25 | with `low > high` a value below `low` becomes `low` and any other value becomes `high`; clamping again flips the result to the other bound |
| Geometry.ClampMonotone | src/main.rs:19-25 | clamping preserves the order of values |
| Pong.MoveRacket | src/main.rs:27-36 | `x` is never modified; with `screen_h >= RACKET_HEIGHT`, `y` ends at the point of `[0, screen_h - RACKET_HEIGHT]` nearest to the target (moved by `-y_dir * PLAYER_SPEED * dt` when the key is down, unmoved otherwise), so an overshooting press stops on the edge and an unpressed out-of-bounds paddle is pulled to the nearest bound; an in-bounds move is exact; a positive `y_dir` never moves an in-bounds paddle down and a negative one never moves it up |
| Pong.RandomizeVec | src/main.rs:38-48 | each component becomes exactly `+m` or `-m` of its magnitude, and for positive magnitudes its sign is positive exactly when its own coin says so |
| Pong.RandomizeVecReachesEveryDirection | src/main.rs:38-48 | every one of the four sign combinations is produced by some pair of coins |
| Pong.RandomizeVecComponentsIndependent | src/main.rs:38-48 | each component depends only on its own coin |
| Pong.New | src/main.rs:60-74 | scores start at 0; paddle 1 is at `x = PADDING` and paddle 2 at `x = w - RACKET_WIDTH - PADDING`; both paddles are vertically centred; the ball starts one ball size up and left of the centre; the velocity is `randomize_vec`'s choice from the given coins, so `abs(vx) = abs(vy) = BALL_SPEED` |
| Physics.MovePaddles | src/main.rs:82-85 | the four key moves change only the paddles' `y`; with `screen_h >= RACKET_HEIGHT` both paddles end in bounds; no key held keeps an in-bounds paddle still; a single held key moves an in-bounds paddle by exactly `PLAYER_SPEED * dt` (W and Up upwards, S and Down downwards) when the move stays in bounds; both keys held away from the top edge cancel out; holding only W or Up never moves it down, and holding only S or Down never moves it up |
| Physics.AdvanceBall | src/main.rs:87-89 | moves the ball by `velocity * dt` and changes nothing else; additive in time and the identity for `dt = 0` (`Physics.AdvanceBallAdditive`, `Physics.AdvanceBallZero`); in play the frame ends at exactly that point (`Physics.UpdateMovesBallInPlay`) |
| Physics.AdvanceBallAdditive | src/main.rs:87-89 | advancing the ball for `a` then `b` seconds is the same as advancing it for `a + b` seconds |
| Physics.AdvanceBallZero | src/main.rs:87-89 | advancing for zero seconds changes nothing |
| Physics.UpdateMovesBallInPlay | src/main.rs:87-110 | a ball whose advanced position is on screen and between the wall lines ends the frame at exactly `(x + vx * dt, y + vy * dt)` with `vy` unchanged and `abs(vx)` unchanged |
| Physics.UpdateKeepsAdvancedBall | src/main.rs:87-110 | the fact of `Physics.UpdateMovesBallInPlay`, stated through the advance step: a ball whose advanced position stays in play ends the frame there, with `vy` and `abs(vx)` unchanged |
| Physics.CheckMisses | src/main.rs:91-102 | a ball left of 0 scores exactly one point for player 2; on a screen with `w >= 0` it also leaves player 1's score alone and serves the ball from `(w/2, h/2)` with the left coins; the right edge mirrors this for player 1; a ball on screen is untouched; scores never decrease; with `w >= 0` at most one score changes and ball `x` ends in `[0, w]`; the speed invariant is kept |
| Physics.BounceWalls | src/main.rs:104-110 | above `BALL_SIZE_HALF` the ball is put on that line and `vy >= 0`; else below `h - BALL_SIZE` it is put on that line and `vy <= 0`; `abs(vy)` is preserved and `x`, `vx`, paddles and scores are untouched; with `h >= BALL_SIZE_HALF + BALL_SIZE` the final `y` lies in `[BALL_SIZE_HALF, h - BALL_SIZE]` |
| Physics.BounceWallsIdempotent | src/main.rs:104-110 | when the screen fits the vertical range, a second bounce changes nothing |
| Physics.IntersectsIsCentreDistance | src/main.rs:112-126 | the four-comparison overlap test equals the reference test "centre distance below the sum of half extents on both axes" |
| Physics.BouncePaddles | src/main.rs:112-130 | an overlap with paddle 1 alone gives `vx >= 0`; an overlap with paddle 2 gives `vx <= 0`, so paddle 2 wins when both overlap; `abs(vx)` is preserved; `vy`, positions and scores are unchanged; no overlap changes nothing |
| Physics.Update | src/main.rs:78-133 | paddle `x` never changes; the paddles end where the key moves put them, untouched by the ball phases; paddles end in bounds when `h >= RACKET_HEIGHT`; ball `x` ends in `[0, w]` when `w >= 0`; ball `y` ends between the wall lines when `h >= BALL_SIZE_HALF + BALL_SIZE`; the speed invariant is preserved; a final overlap of the ball with the moved paddle 2 leaves `vx <= 0`, and an overlap with the moved paddle 1 alone leaves `vx >= 0`; each score grows by 0 or 1, and at most one grows when `w >= 0` |
| Physics.UpdateLeftMiss | src/main.rs:88-102 | on a screen with `w >= 0` and `h >= 2 * BALL_SIZE`, if the advanced ball is left of 0, the frame ends with the ball at the exact centre at ball speed, player 2's score up by one and player 1's unchanged |
| Physics.UpdateRightMiss | src/main.rs:88-102 | on a screen with `w >= 0` and `h >= 2 * BALL_SIZE`, the mirror of the left miss, for the right edge and player 1 |
| Physics.UpdateScoresExactlyOnMiss | src/main.rs:88-102 | with `w >= 0`, player 2 scores exactly when the advanced ball is left of 0 and player 1 exactly when it is right of `w`, and never both |
| Physics.NegativeWidthScoresTwice | src/main.rs:91-102 | because the miss tests are separate `if`s, with a negative width a ball leaving on the left triggers both tests, so one frame scores for both players |
| Physics.BothKeysAtTopEdgeDriftsDown | src/main.rs:82-83 | with W and S both held, `dt > 0`, paddle 1 at the top and `PLAYER_SPEED * dt <= h - RACKET_HEIGHT`, the frame moves it down by `PLAYER_SPEED * dt` |
| Physics.LeftMissExample | src/main.rs:88-102 | a ball at `(5, 300)` moving at `(-100, 0)` for one second on an 800 by 600 screen is served from `(400, 300)` at speed 100 on both axes, and player 2 scores |
| Physics.TopBounceExample | src/main.rs:104-106 | a ball at `y = 5` moving up at 50 px/s is put on `y = 15` and sent down at 50 px/s |
| Session.Run | src/main.rs:78-133 | repeated updates never move a paddle horizontally and never decrease a score |
| Session.NewIsWellFormed | src/main.rs:60-74 | on a screen at least `2 * BALL_SIZE` wide and `RACKET_HEIGHT` tall, the initial state satisfies the game invariant: paddles in bounds, ball in play, speed invariant, non-negative scores |
| Session.UpdatePreservesWellFormed | src/main.rs:78-133 | one update on the same screen preserves the game invariant |
| Session.RunPreservesWellFormed | src/main.rs:78-133 | any number of updates on a fixed screen preserve the game invariant |
| Session.ReachableIsWellFormed | src/main.rs:60-133 | every state reachable from `new` on a fixed screen satisfies the game invariant |
| Session.RunPreservesSpeed | src/main.rs:91-130 | `abs(vx) = abs(vy) = BALL_SPEED` holds after any number of updates on any screens |
| Session.RunPaddlesInLastBounds | src/main.rs:82-85 | after at least one frame, both paddles lie within the last frame's bounds whatever came before |
| Session.RunScoreBoundedByFrames | src/main.rs:91-102 | on screens with `w >= 0`, the total score grows by at most the number of frames |
| Session.RunConcat | src/main.rs:78-133 | running two frame sequences in turn is the same as running their concatenation |

## Left out

- `draw`: rendering of the paddles, ball, centre line and score text is framework glue with no game logic. `MIDDLE_LINE_WIDTH` is used only there.
- `main`: building the context, the window title and the event loop are framework wiring. `Session.Run` stands in for the loop as a sequence of frames.
- The ggez `Context`: the frame time, drawable size and key state are explicit fields of a `Frame`.
- `thread_rng` and `gen_bool(0.5)`: each call is an injected boolean, so the model covers every outcome and says nothing about probabilities.
- 32-bit floats: positions and velocities are `real`, so rounding, NaN and infinity are not modelled. Properties that need a sensible screen or time step say so in their own `requires` (`dt >= 0`, `w >= 0`, `h >= RACKET_HEIGHT`, and so on). The functions themselves accept any real input, as the game does.
- 32-bit scores: `player_1_score` and `player_2_score` are unbounded `int`, so wrap-around after 2^31 - 1 points is not modelled.

=== FILE: geometry.dfy ===
/**
 Plane geometry shared by the Pong model: points, velocity vectors, absolute
 value and the in-place `clamp` helper of the game, modelled over `real`
 (the game itself computes in 32-bit floats).
 */
module Geometry {

  /** A position on screen; `y` grows downwards, as in the game's window. */
  datatype Point = Point(x: real, y: real)

  /** A velocity, in pixels per second. */
  datatype Vector = Vector(x: real, y: real)

  /** Absolute value, as `f32::abs`. */
  function Abs(x: real): (r: real)
    ensures r >= 0.0
    ensures r == x || r == -x
  {
    if x < 0.0 then -x else x
  }

  function Min(a: real, b: real): (r: real)
  {
    if a <= b then a else b
  }

  function Max(a: real, b: real): (r: real)
  {
    if a <= b then b else a
  }

  /**
   The game's `clamp`: a value below `low` becomes `low`, otherwise a value
   above `high` becomes `high`. When `low <= high` the result lies in the
   interval and a value already inside it is left alone.
   */
  function Clamp(value: real, low: real, high: real): (r: real)
    ensures low <= high ==> low <= r <= high
    ensures low <= value <= high ==> r == value
    ensures r == value || r == low || r == high
  {
    if value < low then low
    else if value > high then high
    else value
  }

  /** For a proper interval, clamping agrees with the textbook `max(low, min(value, high))`. */
  lemma ClampIsMaxOfMin(value: real, low: real, high: real)
    requires low <= high
    ensures Clamp(value, low, high) == Max(low, Min(value, high))
  {
  }

  /** Clamping twice into a proper interval is the same as clamping once. */
  lemma ClampIdempotent(value: real, low: real, high: real)
    requires low <= high
    ensures Clamp(Clamp(value, low, high), low, high) == Clamp(value, low, high)
  {
  }

  /**
   With `low > high` the guard order decides: anything below `low` ends at
   `low` and everything else ends at `high`, so the result can lie outside
   any sensible range, and clamping a second time flips it to the other bound.
   */
  lemma ClampInvertedBounds(value: real, low: real, high: real)
    requires low > high
    ensures value < low ==> Clamp(value, low, high) == low
    ensures value >= low ==> Clamp(value, low, high) == high
    ensures Clamp(Clamp(value, low, high), low, high) != Clamp(value, low, high)
  {
  }

  /** Clamping is monotone in the clamped value. */
  lemma ClampMonotone(a: real, b: real, low: real, high: real)
    requires low <= high
    requires a <= b
    ensures Clamp(a, low, high) <= Clamp(b, low, high)
  {
  }
}

=== FILE: physics.dfy ===
/**
 One frame of the game (`EventHandler::update`), split into the phases the
 game runs in order: move the paddles, advance the ball, handle a miss on
 either side, bounce off the top and bottom walls, bounce off the paddles.
 */
module Physics {
  import opened Geometry
  import opened Pong

  /**
   Paddle input. Each key is applied in turn, with a clamp after each: W then
   S for paddle 1, Up then Down for paddle 2. Only the paddles' `y` changes.
   */
  function MovePaddles(s: State, f: Frame): (r: State)
    ensures r.player1.x == s.player1.x && r.player2.x == s.player2.x
    ensures r.ball == s.ball && r.ballVel == s.ballVel
    ensures r.score1 == s.score1 && r.score2 == s.score2
    ensures f.screenH >= RacketHeight ==> PaddlesInBounds(r, f.screenH)
    // With no key held an in-bounds paddle stays put.
    ensures !f.keys.w && !f.keys.s && 0.0 <= s.player1.y <= f.screenH - RacketHeight ==> r.player1 == s.player1
    ensures !f.keys.up && !f.keys.down && 0.0 <= s.player2.y <= f.screenH - RacketHeight ==> r.player2 == s.player2
    // Holding only W (Up) never moves an in-bounds paddle down; only S (Down) never moves it up.
    ensures (f.dt >= 0.0 && f.keys.w && !f.keys.s
              && 0.0 <= s.player1.y <= f.screenH - RacketHeight)
              ==> r.player1.y <= s.player1.y
    ensures (f.dt >= 0.0 && !f.keys.w && f.keys.s
              && 0.0 <= s.player1.y <= f.screenH - RacketHeight)
              ==> r.player1.y >= s.player1.y
    ensures (f.dt >= 0.0 && f.keys.up && !f.keys.down
              && 0.0 <= s.player2.y <= f.screenH - RacketHeight)
              ==> r.player2.y <= s.player2.y
    ensures (f.dt >= 0.0 && !f.keys.up && f.keys.down
              && 0.0 <= s.player2.y <= f.screenH - RacketHeight)
              ==> r.player2.y >= s.player2.y
    // A single held key moves an in-bounds paddle by exactly `PlayerSpeed * dt` when that stays in bounds.
    ensures (f.dt >= 0.0 && f.keys.w && !f.keys.s
              && 0.0 <= s.player1.y - PlayerSpeed * f.dt
              && s.player1.y <= f.screenH - RacketHeight)
              ==> r.player1.y == s.player1.y - PlayerSpeed * f.dt
    ensures (f.dt >= 0.0 && !f.keys.w && f.keys.s
              && 0.0 <= s.player1.y
              && s.player1.y + PlayerSpeed * f.dt <= f.screenH - RacketHeight)
              ==> r.player1.y == s.player1.y + PlayerSpeed * f.dt
    ensures (f.dt >= 0.0 && f.keys.up && !f.keys.down
              && 0.0 <= s.player2.y - PlayerSpeed * f.dt
              && s.player2.y <= f.screenH - RacketHeight)
              ==> r.player2.y == s.player2.y - PlayerSpeed * f.dt
    ensures (f.dt >= 0.0 && !f.keys.up && f.keys.down
              && 0.0 <= s.player2.y
              && s.player2.y + PlayerSpeed * f.dt <= f.screenH - RacketHeight)
              ==> r.player2.y == s.player2.y + PlayerSpeed * f.dt
    // Both keys held away from the top edge cancel out: the first move is undone by the second.
    ensures (f.dt >= 0.0 && f.keys.w && f.keys.s
              && 0.0 <= s.player1.y - PlayerSpeed * f.dt
              && s.player1.y <= f.screenH - RacketHeight)
              ==> r.player1 == s.player1
    ensures (f.dt >= 0.0 && f.keys.up && f.keys.down
              && 0.0 <= s.player2.y - PlayerSpeed * f.dt
              && s.player2.y <= f.screenH - RacketHeight)
              ==> r.player2 == s.player2
  {
    var p1 := MoveRacket(MoveRacket(s.player1, W, 1.0, f), S, -1.0, f);
    var p2 := MoveRacket(MoveRacket(s.player2, Up, 1.0, f), Down, -1.0, f);
    s.(player1 := p1, player2 := p2)
  }

  /** Ball position after moving for `dt` seconds at the current velocity. */
  function Advanced(ball: Point, vel: Vector, dt: real): (r: Point)
  {
    Point(ball.x + vel.x * dt, ball.y + vel.y * dt)
  }

  /** Advance the ball by `velocity * dt`; nothing else changes. */
  function AdvanceBall(s: State, dt: real): (r: State)
    ensures r.ball == Advanced(s.ball, s.ballVel, dt)
    ensures r.player1 == s.player1 && r.player2 == s.player2 && r.ballVel == s.ballVel
    ensures r.score1 == s.score1 && r.score2 == s.score2
  {
    s.(ball := Advanced(s.ball, s.ballVel, dt))
  }

  /** Advancing for `a` then for `b` seconds is advancing for `a + b` seconds. */
  lemma AdvanceBallAdditive(s: State, a: real, b: real)
    ensures AdvanceBall(AdvanceBall(s, a), b) == AdvanceBall(s, a + b)
  {
  }

  /** Advancing for no time leaves the state unchanged. */
  lemma AdvanceBallZero(s: State)
    ensures AdvanceBall(s, 0.0) == s
  {
  }

  /** The ball put back at the screen centre with a freshly randomised velocity. */
  function Serve(s: State, screenW: real, screenH: real, coins: Coins): (r: State)
  {
    s.(ball := Point(screenW * 0.5, screenH * 0.5),
       ballVel := RandomizeVec(BallSpeed, BallSpeed, coins))
  }

  /**
   The two miss checks, run as two separate tests. A ball left of `x = 0` is
   served again and scores for player 2; then a ball right of `x = screenW`
   is served again and scores for player 1.
   */
  function CheckMisses(s: State, screenW: real, screenH: real, left: Coins, right: Coins): (r: State)
    ensures r.player1 == s.player1 && r.player2 == s.player2
    // Left miss: player 2 scores exactly once and the ball is served from the centre.
    ensures s.ball.x < 0.0 ==> r.score2 == s.score2 + 1
    ensures s.ball.x < 0.0 && screenW >= 0.0 ==>
              && r.score1 == s.score1
              && r.ball == Point(screenW * 0.5, screenH * 0.5)
              && r.ballVel == RandomizeVec(BallSpeed, BallSpeed, left)
    // Right miss: player 1 scores exactly once and the ball is served from the centre.
    ensures s.ball.x > screenW ==> r.score1 == s.score1 + 1
    ensures s.ball.x > screenW && s.ball.x >= 0.0 ==>
              && r.score2 == s.score2
              && r.ball == Point(screenW * 0.5, screenH * 0.5)
              && r.ballVel == RandomizeVec(BallSpeed, BallSpeed, right)
    // A ball on screen is left alone.
    ensures 0.0 <= s.ball.x <= screenW ==> r == s
    // Scores never go down and move by at most one each; on a real screen at most one moves.
    ensures s.score1 <= r.score1 <= s.score1 + 1 && s.score2 <= r.score2 <= s.score2 + 1
    ensures screenW >= 0.0 ==> r.score1 + r.score2 <= s.score1 + s.score2 + 1
    ensures screenW >= 0.0 ==> 0.0 <= r.ball.x <= screenW
    ensures SpeedInvariant(s) ==> SpeedInvariant(r)
  {
    var afterLeft := if s.ball.x < 0.0
      then Serve(s, screenW, screenH, left).(score2 := s.score2 + 1)
      else s;
    if afterLeft.ball.x > screenW
      then Serve(afterLeft, screenW, screenH, right).(score1 := afterLeft.score1 + 1)
      else afterLeft
  }

  /**
   Wall bounce. Above `BallSizeHalf` the ball is put back on that line and
   sent downwards; otherwise below `screenH - BallSize` it is put back on that
   line and sent upwards. Only the vertical position and the sign of the
   vertical velocity can change.
   */
  function BounceWalls(s: State, screenH: real): (r: State)
    ensures r.player1 == s.player1 && r.player2 == s.player2
    ensures r.score1 == s.score1 && r.score2 == s.score2
    ensures r.ball.x == s.ball.x && r.ballVel.x == s.ballVel.x
    ensures Abs(r.ballVel.y) == Abs(s.ballVel.y)
    ensures s.ball.y < BallSizeHalf ==> r.ball.y == BallSizeHalf && r.ballVel.y >= 0.0
    ensures (BallSizeHalf <= s.ball.y && s.ball.y > screenH - BallSize)
              ==> r.ball.y == screenH - BallSize && r.ballVel.y <= 0.0
    ensures BallSizeHalf <= s.ball.y <= screenH - BallSize ==> r == s
    ensures screenH >= BallSizeHalf + BallSize ==> BallSizeHalf <= r.ball.y <= screenH - BallSize
  {
    if s.ball.y < BallSizeHalf then
      s.(ball := s.ball.(y := BallSizeHalf), ballVel := s.ballVel.(y := Abs(s.ballVel.y)))
    else if s.ball.y > screenH - BallSize then
      s.(ball := s.ball.(y := screenH - BallSize), ballVel := s.ballVel.(y := -Abs(s.ballVel.y)))
    else
      s
  }

  /** Bouncing twice is bouncing once, as long as the screen fits the ball's vertical range. */
  lemma BounceWallsIdempotent(s: State, screenH: real)
    requires screenH >= BallSizeHalf + BallSize
    ensures BounceWalls(BounceWalls(s, screenH), screenH) == BounceWalls(s, screenH)
  {
  }

  /**
   Strict overlap of the ball's box with a paddle's box, both treated as
   centred on their positions (the ball's half size, the paddle's half width
   and half height).
   */
  predicate Intersects(ball: Point, paddle: Point) {
    && ball.x - BallSizeHalf < paddle.x + RacketWidthHalf
    && ball.x + BallSizeHalf > paddle.x - RacketWidthHalf
    && ball.y - BallSizeHalf < paddle.y + RacketHeightHalf
    && ball.y + BallSizeHalf > paddle.y - RacketHeightHalf
  }

  /**
   The collision test agrees with the usual centre-distance formulation: two
   centred boxes overlap exactly when, on each axis, their centres are closer
   than the sum of their half extents.
   */
  lemma IntersectsIsCentreDistance(ball: Point, paddle: Point)
    ensures Intersects(ball, paddle) <==>
              && Abs(ball.x - paddle.x) < BallSizeHalf + RacketWidthHalf
              && Abs(ball.y - paddle.y) < BallSizeHalf + RacketHeightHalf
  {
  }

  /**
   Paddle bounce. Overlapping paddle 1 sends the ball right, then overlapping
   paddle 2 sends it left, so paddle 2 wins when both overlap. Only the sign
   of the horizontal velocity can change.
   */
  function BouncePaddles(s: State): (r: State)
    ensures r.player1 == s.player1 && r.player2 == s.player2 && r.ball == s.ball
    ensures r.score1 == s.score1 && r.score2 == s.score2
    ensures r.ballVel.y == s.ballVel.y
    ensures Abs(r.ballVel.x) == Abs(s.ballVel.x)
    ensures Intersects(s.ball, s.player1) && !Intersects(s.ball, s.player2) ==> r.ballVel.x >= 0.0
    ensures Intersects(s.ball, s.player2) ==> r.ballVel.x <= 0.0
    ensures !Intersects(s.ball, s.player1) && !Intersects(s.ball, s.player2) ==> r == s
  {
    var vx1 := if Intersects(s.ball, s.player1) then Abs(s.ballVel.x) else s.ballVel.x;
    var vx2 := if Intersects(s.ball, s.player2) then -Abs(vx1) else vx1;
    s.(ballVel := s.ballVel.(x := vx2))
  }

  /** `EventHandler::update`: one frame of the game. */
  function Update(s: State, f: Frame): (r: State)
    ensures r.player1.x == s.player1.x && r.player2.x == s.player2.x
    // The ball phases never touch the paddles: they end where the key moves put them.
    ensures r.player1 == MovePaddles(s, f).player1 && r.player2 == MovePaddles(s, f).player2
    // The paddle bounce is decided against the final ball and the moved paddles; paddle 2 is tested last.
    ensures Intersects(r.ball, r.player2) ==> r.ballVel.x <= 0.0
    ensures Intersects(r.ball, r.player1) && !Intersects(r.ball, r.player2) ==> r.ballVel.x >= 0.0
    ensures f.screenH >= RacketHeight ==> PaddlesInBounds(r, f.screenH)
    ensures f.screenW >= 0.0 ==> 0.0 <= r.ball.x <= f.screenW
    ensures f.screenH >= BallSizeHalf + BallSize ==> BallSizeHalf <= r.ball.y <= f.screenH - BallSize
    ensures SpeedInvariant(s) ==> SpeedInvariant(r)
    ensures s.score1 <= r.score1 <= s.score1 + 1 && s.score2 <= r.score2 <= s.score2 + 1
    ensures f.screenW >= 0.0 ==> r.score1 + r.score2 <= s.score1 + s.score2 + 1
  {
    var moved := MovePaddles(s, f);
    var advanced := AdvanceBall(moved, f.dt);
    var served := CheckMisses(advanced, f.screenW, f.screenH, f.leftMissCoins, f.rightMissCoins);
    var bounced := BounceWalls(served, f.screenH);
    BouncePaddles(bounced)
  }

  /** The phase-by-phase core of `UpdateMovesBallInPlay`, stated through `Advanced`. */
  lemma UpdateKeepsAdvancedBall(s: State, f: Frame)
    requires 0.0 <= Advanced(s.ball, s.ballVel, f.dt).x <= f.screenW
    requires BallSizeHalf <= Advanced(s.ball, s.ballVel, f.dt).y <= f.screenH - BallSize
    ensures Update(s, f).ball == Advanced(s.ball, s.ballVel, f.dt)
    ensures Update(s, f).ballVel.y == s.ballVel.y
    ensures Abs(Update(s, f).ballVel.x) == Abs(s.ballVel.x)
  {
    var moved := MovePaddles(s, f);
    var advanced := AdvanceBall(moved, f.dt);
    assert advanced.ball == Advanced(s.ball, s.ballVel, f.dt);
    var served := CheckMisses(advanced, f.screenW, f.screenH, f.leftMissCoins, f.rightMissCoins);
    assert served == advanced;
    assert BounceWalls(served, f.screenH) == served;
  }

  /**
   A ball that stays in play moves by exactly `velocity * dt` in a frame:
   after advancing it is on screen horizontally and between the wall lines,
   so no miss and no wall bounce touches it. Its vertical velocity is kept
   and only the sign of its horizontal velocity can change (a paddle bounce).
   */
  lemma UpdateMovesBallInPlay(s: State, f: Frame)
    requires 0.0 <= s.ball.x + s.ballVel.x * f.dt <= f.screenW
    requires BallSizeHalf <= s.ball.y + s.ballVel.y * f.dt <= f.screenH - BallSize
    ensures Update(s, f).ball == Point(s.ball.x + s.ballVel.x * f.dt, s.ball.y + s.ballVel.y * f.dt)
    ensures Update(s, f).ballVel.y == s.ballVel.y
    ensures Abs(Update(s, f).ballVel.x) == Abs(s.ballVel.x)
  {
    var target := Advanced(s.ball, s.ballVel, f.dt);
    assert target == Point(s.ball.x + s.ballVel.x * f.dt, s.ball.y + s.ballVel.y * f.dt);
    UpdateKeepsAdvancedBall(s, f);
  }

  /** A screen on which the ball can sit at the centre without touching either wall bound. */
  predicate CentreFits(screenW: real, screenH: real) {
    screenW >= 0.0 && screenH >= 2.0 * BallSize
  }

  /**
   A ball that leaves through the left edge is served from the exact screen
   centre at the ball speed; player 2 gains exactly one point and player 1
   none.
   */
  lemma UpdateLeftMiss(s: State, f: Frame)
    requires Advanced(s.ball, s.ballVel, f.dt).x < 0.0
    requires CentreFits(f.screenW, f.screenH)
    ensures Update(s, f).ball == Point(f.screenW * 0.5, f.screenH * 0.5)
    ensures Update(s, f).score2 == s.score2 + 1
    ensures Update(s, f).score1 == s.score1
    ensures SpeedInvariant(Update(s, f))
  {
  }

  /** The mirror of `UpdateLeftMiss` for the right edge and player 1. */
  lemma UpdateRightMiss(s: State, f: Frame)
    requires Advanced(s.ball, s.ballVel, f.dt).x > f.screenW
    requires CentreFits(f.screenW, f.screenH)
    ensures Update(s, f).ball == Point(f.screenW * 0.5, f.screenH * 0.5)
    ensures Update(s, f).score1 == s.score1 + 1
    ensures Update(s, f).score2 == s.score2
    ensures SpeedInvariant(Update(s, f))
  {
  }

  /** On a real screen a player scores in a frame exactly when the ball leaves through the far edge. */
  lemma UpdateScoresExactlyOnMiss(s: State, f: Frame)
    requires f.screenW >= 0.0
    ensures Update(s, f).score2 == s.score2 + 1 <==> Advanced(s.ball, s.ballVel, f.dt).x < 0.0
    ensures Update(s, f).score1 == s.score1 + 1 <==> Advanced(s.ball, s.ballVel, f.dt).x > f.screenW
    ensures Update(s, f).score1 == s.score1 || Update(s, f).score2 == s.score2
  {
  }

  /**
   With a negative width a ball leaving on the left triggers both miss
   checks: the reset to `screenW / 2` lands right of `screenW`, so both
   players score in one frame.
   */
  lemma NegativeWidthScoresTwice(s: State, f: Frame)
    requires f.screenW < 0.0
    requires Advanced(s.ball, s.ballVel, f.dt).x < 0.0
    ensures Update(s, f).score1 == s.score1 + 1
    ensures Update(s, f).score2 == s.score2 + 1
  {
  }

  /**
   Holding both keys of a paddle is not neutral: from the top edge the first
   key's move is clamped away and the second key's move is kept, so the
   paddle drifts down by `PlayerSpeed * dt`.
   */
  lemma BothKeysAtTopEdgeDriftsDown(s: State, f: Frame)
    requires f.keys.w && f.keys.s
    requires f.dt > 0.0
    requires s.player1.y == 0.0
    requires PlayerSpeed * f.dt <= f.screenH - RacketHeight
    ensures Update(s, f).player1.y == PlayerSpeed * f.dt
    ensures Update(s, f).player1.y > s.player1.y
  {
  }

  /**
   A worked example: a ball five pixels from the left
   edge moving left at 100 px/s for one second on an 800 by 600 screen is
   served from the centre and player 2 scores.
   */
  lemma LeftMissExample(coins: Coins, p1: Point, p2: Point)
    ensures var s := State(p1, p2, Point(5.0, 300.0), Vector(-100.0, 0.0), 0, 0);
            var f := Frame(1.0, 800.0, 600.0, Keys(false, false, false, false), coins, coins);
            && Update(s, f).ball == Point(400.0, 300.0)
            && Update(s, f).score2 == 1
            && Update(s, f).score1 == 0
            && Abs(Update(s, f).ballVel.x) == 100.0
            && Abs(Update(s, f).ballVel.y) == 100.0
  {
    var s := State(p1, p2, Point(5.0, 300.0), Vector(-100.0, 0.0), 0, 0);
    var f := Frame(1.0, 800.0, 600.0, Keys(false, false, false, false), coins, coins);
    UpdateLeftMiss(s, f);
  }

  /**
   A worked example: a ball that has been advanced to `y = 5`, above the top
   line, while moving up at 50 px/s is put back on `y = BallSizeHalf` and
   sent down at the same speed.
   */
  lemma TopBounceExample(s: State)
    requires s.ball == Point(400.0, 5.0) && s.ballVel == Vector(0.0, -50.0)
    ensures BounceWalls(s, 600.0).ball == Point(400.0, 15.0)
    ensures BounceWalls(s, 600.0).ballVel == Vector(0.0, 50.0)
  {
  }
}

=== FILE: pong.dfy ===
/**
 The Pong game state and the helpers the frame update builds on: the tuning
 constants, paddle movement, velocity randomisation and the initial state.

 Everything the game reads from its framework context in a frame (elapsed
 time, drawable size, keyboard state, random coin flips) is gathered into an
 explicit `Frame` value, so that one update is a deterministic function of
 the state and the frame.
 */
module Pong {
  import opened Geometry

  // Tuning constants of the game, in pixels and pixels per second.
  const Padding: real := 40.0
  const RacketHeight: real := 100.0
  const RacketWidth: real := 20.0
  const RacketHeightHalf: real := RacketHeight * 0.5
  const RacketWidthHalf: real := RacketWidth * 0.5
  const BallSize: real := 30.0
  const BallSizeHalf: real := BallSize * 0.5
  const PlayerSpeed: real := 600.0
  const BallSpeed: real := 100.0

  /** The four keys the game polls: W/S move paddle 1, Up/Down move paddle 2. */
  datatype Key = W | S | Up | Down

  /** Key-down state of the four keys during one frame. */
  datatype Keys = Keys(w: bool, s: bool, up: bool, down: bool)
  {
    predicate IsPressed(k: Key) {
      match k
      case W => w
      case S => s
      case Up => up
      case Down => down
    }
  }

  /**
   The two fair coin flips one velocity randomisation consumes: the first
   picks the sign of the horizontal component, the second the vertical one
   (`true` keeps the positive magnitude).
   */
  datatype Coins = Coins(xPositive: bool, yPositive: bool)

  /**
   What one frame supplies: elapsed seconds, the drawable size, the keys held
   down, and the coins for the reset after a miss on the left and on the
   right edge (each miss check re-randomises the velocity on its own).
   */
  datatype Frame = Frame(
    dt: real,
    screenW: real,
    screenH: real,
    keys: Keys,
    leftMissCoins: Coins,
    rightMissCoins: Coins)

  /** The whole game state: both paddles, the ball and both scores. */
  datatype State = State(
    player1: Point,
    player2: Point,
    ball: Point,
    ballVel: Vector,
    score1: int,
    score2: int)

  /** Both velocity components have the ball speed as magnitude. */
  predicate SpeedInvariant(s: State) {
    Abs(s.ballVel.x) == BallSpeed && Abs(s.ballVel.y) == BallSpeed
  }

  /** Both paddles' `y` (their clamped top edge) lie in `[0, screenH - RacketHeight]`. */
  predicate PaddlesInBounds(s: State, screenH: real) {
    && 0.0 <= s.player1.y <= screenH - RacketHeight
    && 0.0 <= s.player2.y <= screenH - RacketHeight
  }

  /**
   `move_racket`: if `key` is down the paddle moves by `-yDir * PlayerSpeed * dt`,
   then its `y` is clamped into `[0, screenH - RacketHeight]` whether or not the
   key was down. The paddle's `x` never changes.
   */
  function MoveRacket(pos: Point, key: Key, yDir: real, f: Frame): (r: Point)
    ensures r.x == pos.x
    ensures f.screenH >= RacketHeight ==> 0.0 <= r.y <= f.screenH - RacketHeight
    // On a screen that fits the paddle, the target (moved if the key is down) lands on the nearest point in bounds.
    ensures f.screenH >= RacketHeight ==>
              r.y == Max(0.0, Min(if f.keys.IsPressed(key) then pos.y - yDir * PlayerSpeed * f.dt else pos.y,
                                  f.screenH - RacketHeight))
    ensures !f.keys.IsPressed(key) && 0.0 <= pos.y <= f.screenH - RacketHeight ==> r == pos
    ensures (f.keys.IsPressed(key) && 0.0 <= pos.y - yDir * PlayerSpeed * f.dt <= f.screenH - RacketHeight)
              ==> r.y == pos.y - yDir * PlayerSpeed * f.dt
    // A positive direction (W, Up) never moves an in-bounds paddle down, a negative one (S, Down) never up.
    ensures f.dt >= 0.0 && yDir >= 0.0 && 0.0 <= pos.y <= f.screenH - RacketHeight ==> r.y <= pos.y
    ensures f.dt >= 0.0 && yDir <= 0.0 && 0.0 <= pos.y <= f.screenH - RacketHeight ==> r.y >= pos.y
  {
    var moved := if f.keys.IsPressed(key) then pos.y - yDir * PlayerSpeed * f.dt else pos.y;
    assert f.dt >= 0.0 && yDir >= 0.0 ==> yDir * PlayerSpeed * f.dt >= 0.0;
    assert f.dt >= 0.0 && yDir <= 0.0 ==> yDir * PlayerSpeed * f.dt <= 0.0;
    Point(pos.x, Clamp(moved, 0.0, f.screenH - RacketHeight))
  }

  /**
   `randomize_vec`: the old velocity is discarded; each component becomes
   exactly `+m` or `-m` of its magnitude, its sign chosen by its own coin.
   */
  function RandomizeVec(x: real, y: real, coins: Coins): (r: Vector)
    ensures r.x == x || r.x == -x
    ensures r.y == y || r.y == -y
    ensures Abs(r.x) == Abs(x) && Abs(r.y) == Abs(y)
    ensures x > 0.0 ==> (r.x > 0.0 <==> coins.xPositive)
    ensures y > 0.0 ==> (r.y > 0.0 <==> coins.yPositive)
  {
    Vector(if coins.xPositive then x else -x, if coins.yPositive then y else -y)
  }

  /** Every one of the four diagonal directions is produced by some pair of coins. */
  lemma RandomizeVecReachesEveryDirection(x: real, y: real, v: Vector)
    requires v.x == x || v.x == -x
    requires v.y == y || v.y == -y
    ensures exists c: Coins :: RandomizeVec(x, y, c) == v
  {
    var c := Coins(v.x == x, v.y == y);
    assert RandomizeVec(x, y, c) == v;
  }

  /** Each component depends on its own coin only: the coins are independent. */
  lemma RandomizeVecComponentsIndependent(x: real, y: real, c: Coins, d: Coins)
    ensures c.xPositive == d.xPositive ==> RandomizeVec(x, y, c).x == RandomizeVec(x, y, d).x
    ensures c.yPositive == d.yPositive ==> RandomizeVec(x, y, c).y == RandomizeVec(x, y, d).y
  {
  }

  /**
   `MainState::new`: scores start at zero, paddle 1 sits `Padding` from the
   left edge and paddle 2 `Padding` plus its width from the right edge, both
   paddles are vertically centred, the ball starts one ball size up and left
   of the screen centre, and its velocity is randomised at the ball speed.
   */
  function New(screenW: real, screenH: real, coins: Coins): (r: State)
    ensures r.score1 == 0 && r.score2 == 0
    ensures r.player1.x == Padding
    ensures r.player2.x + RacketWidth + Padding == screenW
    ensures r.player1.y == r.player2.y
    ensures r.player1.y + RacketHeightHalf == screenH * 0.5
    ensures r.ball == Point(screenW * 0.5 - BallSize, screenH * 0.5 - BallSize)
    ensures SpeedInvariant(r)
    ensures r.ballVel == RandomizeVec(BallSpeed, BallSpeed, coins)
  {
    var wHalf := screenW * 0.5;
    var hHalf := screenH * 0.5;
    State(
      Point(Padding, hHalf - RacketHeightHalf),
      Point(screenW - RacketWidth - Padding, hHalf - RacketHeightHalf),
      Point(wHalf - BallSize, hHalf - BallSize),
      RandomizeVec(BallSpeed, BallSpeed, coins),
      0, 0)
  }
}

=== FILE: session.dfy ===
/**
 A game session: the update applied once per frame to a sequence of frames,
 and the invariants the game keeps across any number of frames.
 */
module Session {
  import opened Geometry
  import opened Pong
  import opened Physics

  /** The state after running `frames` in order from `s`. */
  function Run(s: State, frames: seq<Frame>): (r: State)
    ensures r.player1.x == s.player1.x && r.player2.x == s.player2.x
    ensures s.score1 <= r.score1 && s.score2 <= r.score2
    decreases |frames|
  {
    if |frames| == 0 then s else Run(Update(s, frames[0]), frames[1..])
  }

  /** A screen large enough for the paddles to move and the ball to start in play. */
  predicate ScreenFits(screenW: real, screenH: real) {
    screenW >= 2.0 * BallSize && screenH >= RacketHeight
  }

  /**
   The invariant of a running game on a fixed screen: paddles in bounds, the
   ball horizontally on screen and vertically between the two wall lines,
   the ball speed on both axes, and non-negative scores.
   */
  predicate WellFormed(s: State, screenW: real, screenH: real) {
    && PaddlesInBounds(s, screenH)
    && 0.0 <= s.ball.x <= screenW
    && BallSizeHalf <= s.ball.y <= screenH - BallSize
    && SpeedInvariant(s)
    && s.score1 >= 0 && s.score2 >= 0
  }

  /** Every frame reports the same drawable size. */
  predicate FixedScreen(frames: seq<Frame>, screenW: real, screenH: real) {
    forall i :: 0 <= i < |frames| ==> frames[i].screenW == screenW && frames[i].screenH == screenH
  }

  /** The initial state is well formed on any screen that fits the game. */
  lemma NewIsWellFormed(screenW: real, screenH: real, coins: Coins)
    requires ScreenFits(screenW, screenH)
    ensures WellFormed(New(screenW, screenH, coins), screenW, screenH)
  {
  }

  /** One frame on the same screen keeps the game well formed. */
  lemma UpdatePreservesWellFormed(s: State, f: Frame)
    requires ScreenFits(f.screenW, f.screenH)
    requires WellFormed(s, f.screenW, f.screenH)
    ensures WellFormed(Update(s, f), f.screenW, f.screenH)
  {
  }

  /** Any number of frames on a fixed screen keep the game well formed. */
  lemma {:induction false} RunPreservesWellFormed(s: State, frames: seq<Frame>, screenW: real, screenH: real)
    requires ScreenFits(screenW, screenH)
    requires FixedScreen(frames, screenW, screenH)
    requires WellFormed(s, screenW, screenH)
    ensures WellFormed(Run(s, frames), screenW, screenH)
    decreases |frames|
  {
    if |frames| > 0 {
      UpdatePreservesWellFormed(s, frames[0]);
      RunPreservesWellFormed(Update(s, frames[0]), frames[1..], screenW, screenH);
    }
  }

  /** From the initial state, every reachable state is well formed. */
  lemma ReachableIsWellFormed(screenW: real, screenH: real, coins: Coins, frames: seq<Frame>)
    requires ScreenFits(screenW, screenH)
    requires FixedScreen(frames, screenW, screenH)
    ensures WellFormed(Run(New(screenW, screenH, coins), frames), screenW, screenH)
  {
    NewIsWellFormed(screenW, screenH, coins);
    RunPreservesWellFormed(New(screenW, screenH, coins), frames, screenW, screenH);
  }

  /**
   The velocity magnitude is an invariant of play whatever the screen: the
   serve re-randomises at the ball speed and the bounces only flip signs.
   */
  lemma {:induction false} RunPreservesSpeed(s: State, frames: seq<Frame>)
    requires SpeedInvariant(s)
    ensures SpeedInvariant(Run(s, frames))
    decreases |frames|
  {
    if |frames| > 0 {
      RunPreservesSpeed(Update(s, frames[0]), frames[1..]);
    }
  }

  /**
   Whatever the frames, paddles end inside the last frame's bounds: each
   frame clamps them again.
   */
  lemma {:induction false} RunPaddlesInLastBounds(s: State, frames: seq<Frame>)
    requires |frames| > 0
    requires frames[|frames| - 1].screenH >= RacketHeight
    ensures PaddlesInBounds(Run(s, frames), frames[|frames| - 1].screenH)
    decreases |frames|
  {
    if |frames| > 1 {
      RunPaddlesInLastBounds(Update(s, frames[0]), frames[1..]);
    }
  }

  /** On real screens a frame awards at most one point, so points never outnumber frames. */
  lemma {:induction false} RunScoreBoundedByFrames(s: State, frames: seq<Frame>)
    requires forall i :: 0 <= i < |frames| ==> frames[i].screenW >= 0.0
    ensures Run(s, frames).score1 + Run(s, frames).score2 <= s.score1 + s.score2 + |frames|
    decreases |frames|
  {
    if |frames| > 0 {
      RunScoreBoundedByFrames(Update(s, frames[0]), frames[1..]);
    }
  }

  /** Running two frame sequences one after the other is running their concatenation. */
  lemma {:induction false} RunConcat(s: State, a: seq<Frame>, b: seq<Frame>)
    ensures Run(s, a + b) == Run(Run(s, a), b)
    decreases |a|
  {
    if |a| == 0 {
      assert a + b == b;
    } else {
      assert (a + b)[1..] == a[1..] + b;
      RunConcat(Update(s, a[0]), a[1..], b);
    }
  }
}
